=== FILE: README.md ===
# Loan approval engine — a Dafny model

This project models the calculation engine of a loan-eligibility page:
- the equated monthly instalment (EMI) of an amortising loan;
- the month-by-month amortization table;
- the weighted approval score and its five-factor breakdown;
- the approve/review decision and its recommendation line;
- the KPI totals;
- the required-field check that gates all of it;
- `assessLoan`, which composes these steps. In `assessLoan` the
  employment type's risk rate doubles as the annual interest rate.

All amounts are exact `real`s. JavaScript's `undefined` rate for an unknown
employment key is `Option.None`.

Modules, in dependency order:

- `Optional` — `Option`, standing in for a missing table entry.
- `Numeric` — `clamp`, `Math.min`/`Math.max`, and a natural-number power.
- `Config` — `WEIGHTS`, `THRESHOLD` and the `EMP_RATE` table.
- `Emi` — `computeEMI`, and `Owed`, the balance left after k payments
  without a floor at zero.
- `Amortization` — `getAmortization` as a recursively built sequence of rows.
- `LoanForm` — the applicant form and `validateForm`'s decision.
- `Scoring` — `computeProbability`, the breakdown array, and a corrected
  score (see Findings).
- `Decision` — the result box and the recommendation.
- `Assessment` — `updateKPIs` and `assessLoan`.

The central result: for a loan amount of at least zero and over exact
numbers, the EMI makes the unfloored balance reach exactly zero after the
last month. So for such a loan the table's floor at zero never fires. The
last row owes nothing and shows the whole loan as cumulative principal. Its
cumulative interest equals the KPI total interest, emi·tenure − P, which is
never negative.

The code scores credit in two ways: the clamped raw score in
`computeProbability` (script.js:89) and `clamp(score/9, 0, 100)` in the
breakdown (script.js:162).

## Model

| member | source | states |
|---|---|---|
| Numeric.Clamp | script.js:4 | with ordered bounds the result lies between them; a value already in range is returned unchanged; below or above the range the nearer bound is returned; with reversed bounds the lower bound wins |
| Numeric.ClampMonotone | script.js:4 | clamping to fixed bounds never reverses the order of two values |
| Numeric.PowBounds | script.js:42 | powers of a base of at least one are at least one, above one for a base above one, and positive for a positive base, so the annuity discount is well defined |
| Config.EmpRate | script.js:23 | the rate exists exactly for govt, salaried, self and student, with rates 0.085, 0.095, 0.11 and 0.14; every rate lies in [0.085, 0.14] |
| Config.WeightsTotalHundred | script.js:21 | the five weights 40, 35, 15, 7 and 3 total 100 |
| Emi.Discount | script.js:42 | the annuity discount 1 − (1+r)^−n lies in [0, 1) and is positive for a positive rate and tenure |
| Emi.ComputeEmi | script.js:39-43 | zero for a zero principal or a tenure ≤ 0; for a zero or missing rate, emi·months = P; otherwise emi·(1 − (1+r)^−months) = P·r; never negative for P ≥ 0, positive for P > 0, and at least P·r, so the first month's principal part is not negative |
| Emi.EmiSettlesLoan | script.js:39-43 | paying the computed EMI every month at the same rate leaves exactly nothing owed after the last month |
| Emi.OwedNonIncreasing | script.js:50-52 | while the payment covers the interest on the original principal, the unfloored balance never rises and never exceeds P |
| Emi.OwedAtLeastLater | script.js:50-52 | an earlier unfloored balance is never below a later one |
| Emi.OwedWithoutInterest | script.js:42 | at a zero rate, k payments reduce the balance by exactly k·emi |
| Amortization.MonthRow | script.js:50-54 | one pass of the loop: principal + interest is the payment; the new balance is never negative and equals the unfloored balance whenever that is not negative (0 otherwise); cumulative principal is P minus the new balance; cumulative interest grows by the month's interest |
| Amortization.Rows | script.js:49-55 | one row per month counted, numbered consecutively from the first month |
| Amortization.GetAmortization | script.js:45-57 | exactly max(months, 0) rows, numbered 1, 2, …, months in order |
| Amortization.RowsBookkeeping | script.js:50-54 | in every row principal + interest is the payment, the cumulative principal is P minus the balance, and the cumulative interest is the running sum of the interest column |
| Amortization.ScheduleBalances | script.js:48-55 | for P ≥ 0 and a rate ≥ 0 every balance lies between 0 and the previous balance (P for the first row), and no month charges negative interest |
| Amortization.EmiCoversInterest | script.js:50-51 | over at least one month, the EMI at a defined rate is at least the first month's interest on a principal that is not negative |
| Amortization.ScheduleSettles | script.js:45-57 | every balance is the unfloored balance, so the floor never fires; the last row owes 0, shows P as cumulative principal and emi·months − P as cumulative interest |
| Amortization.InterestSumNonNegative | script.js:53 | an interest column with no negative entry has a non-negative total |
| Amortization.ScheduleInterestTotal | script.js:53-54 | everything paid, emi·months, exceeds the loan by exactly the sum of the interest column, which is not negative |
| LoanForm.ValidateForm | script.js:77-86 | the form passes exactly when name, income, loan amount, tenure, credit score and age are all truthy |
| LoanForm.CompleteMeansAllTruthy | script.js:80-85 | completeness is the same as each field of the required list, in turn, being truthy |
| Scoring.Weighted | script.js:95 | when all five sub-scores are the same value the weighted sum is that value times the weights' total over 100; with non-negative weights, non-negative sub-scores give a non-negative sum |
| Scoring.EmploymentScore | script.js:165 | the rate is recovered from the score as (100 − score)/100; a table rate in [0.085, 0.14] scores in [86, 91.5]; a rate in [0, 1] scores in [0, 100] |
| Scoring.TenureOrOne | script.js:91 | the zero-tenure fallback to 1 is never zero and keeps any non-zero tenure |
| Scoring.Affordability | script.js:91 | the affordability sub-score lies in [0, 100] |
| Scoring.AffordabilityValue | script.js:90-91 | for a positive loan and months, while the net income (income + co-income − debts) over the months is between 0 and the loan, the sub-score is that amount as a percentage of the loan |
| Scoring.AffordabilityMonotone | script.js:90-91 | for a positive loan and months, more income never lowers the affordability sub-score |
| Scoring.LoanSize | script.js:92 | the loan-size sub-score lies in [0, 100] |
| Scoring.LoanSizeValue | script.js:92 | for a positive income and a loan between 0 and a year's income, the loan-size sub-score is 100·(1 − loan/(12·income)) |
| Scoring.LoanSizeMonotone | script.js:92 | on the same positive income, a larger loan never raises the loan-size sub-score |
| Scoring.AgeScore | script.js:94 | the age sub-score lies in [0, 100] and is age/75 as a percentage for ages 0 to 75 |
| Scoring.CreditFactor | script.js:162 | the breakdown credit factor lies in [0, 100] and is score/9 for scores 0 to 900 |
| Scoring.ProbabilityScores | script.js:89-94 | the credit term is the unscaled score in [300, 900]; affordability, loan size and age lie in [0, 100]; the employment term lies in [86, 91.5] |
| Scoring.ComputeProbability | script.js:88-97 | the score always lies in [0, 100] |
| Scoring.WeightedProbabilityAtLeast120 | script.js:89-95 | the weighted sum before the final clamp is at least 120 |
| Scoring.ProbabilityAlwaysFull | script.js:88-97 | as written the score is exactly 100 for every form |
| Scoring.Breakdown | script.js:161-167 | credit, affordability, loan-size and age factors lie in [0, 100]; the employment factor exists exactly for a known key, equals 100 − rate·100 and lies in [86, 91.5] |
| Scoring.IntendedScores | script.js:161-167 | the corrected sub-scores all lie in [0, 100]; they are those of `computeProbability` with the credit term replaced by the breakdown's credit factor |
| Scoring.WeightedInRange | script.js:95 | sub-scores in [0, 100] weighted by weights totalling 100 give a total in [0, 100] |
| Scoring.IntendedProbability | script.js:95-96 | the corrected score lies in [0, 100] and equals the weighted sum itself, so its final clamp never changes it |
| Scoring.IntendedMatchesBreakdown | script.js:161-167 | for a validated form with a known employment key, the corrected score weighs exactly the five breakdown factors |
| Scoring.IntendedMonotoneInCredit | script.js:162 | raising the credit score, all else equal, never lowers the corrected score |
| Scoring.WeightedMonotoneInCredit | script.js:95 | a higher credit sub-score, the others unchanged, never lowers the weighted sum |
| Decision.ResultBox | script.js:117-118 | "likely approved" exactly when the score is at least 65, "risky" exactly when it is below |
| Decision.Recommendations | script.js:171-173 | exactly one message: the review advice exactly when the score is below 65, the approval message exactly when it is at least 65 |
| Decision.RecommendationText | script.js:174 | joining a one-message list gives that message |
| Decision.BoxAndRecommendationAgree | script.js:172-173 | for every numeric score, the recommendation shown is the message of the result box's verdict, though the two use opposite comparisons |
| Decision.VerdictMonotone | script.js:117 | a higher score never turns an approval into a risk |
| Assessment.IncomeOrOne | script.js:108 | the zero-income fallback to 1 is never zero and keeps any non-zero income |
| Assessment.UpdateKpis | script.js:105-109 | total repayment is emi·tenure, total interest is what it exceeds the loan by, and the two ratios multiplied back by the income give emi·100 and P·100 |
| Assessment.Assemble | script.js:154-176 | a valid form is assessed and reported with the score it was given |
| Assessment.ScheduleAgreesWithKpis | script.js:156 | the table at a table rate has one row per month; for a positive loan and tenure its last row owes 0 and repays P; its interest column and last cumulative interest equal the KPI total interest, which is not negative |
| Assessment.AssembleFigures | script.js:154-176 | every assessment prices the EMI at the employment rate, its KPIs are `updateKPIs` of that EMI with repayment emi·tenure and interest repayment − P, its factors are the form's breakdown, and its verdict and recommendation follow the threshold |
| Assessment.AssembleSchedule | script.js:154-176 | every assessment has a schedule exactly for a known employment key; that schedule is `getAmortization` at the key's rate and settles against the KPIs |
| Assessment.AssembleWellFormed | script.js:154-176 | every assessment prices the EMI at the employment rate; its KPIs are `updateKPIs` of that EMI and its factors are the form's breakdown; its verdict and recommendation follow the threshold; it has a schedule exactly for a known key, that schedule is `getAmortization` at the key's rate, and it settles against the KPIs |
| Assessment.AssessLoan | script.js:150-177 | an invalid form yields nothing; a valid one gets the EMI at the employment rate, the `updateKPIs` figures of that EMI, the breakdown factors, and for a known key the `getAmortization` table at that rate, which settles against the KPIs; as written it always scores 100 and is always "likely approved" |
| Assessment.AssessLoanCorrected | script.js:158 | with the corrected score, an invalid form yields nothing; a valid one gets the same EMI, KPIs, breakdown factors and schedule as `assessLoan`, with a score in [0, 100] whose verdict follows the threshold |
| Assessment.SampleApproved | script.js:132-142 | the sample applicant is complete, scores 100 as written and at least 65 with the corrected score |
| Assessment.RiskyApprovedAsWritten | script.js:88-97 | an applicant borrowing 20 times their annual income with credit score 320 still scores 100 and is "likely approved" |
| Assessment.RiskyFlaggedWhenCorrected | script.js:95-96 | with the corrected score that applicant falls below 65 and gets the review advice |

## Left out

- DOM and UI wiring is not modelled, because it is presentation with no engine logic. This covers:
  - element lookup and error-element display toggling;
  - `renderAmortization`'s HTML;
  - `updateDashboard`, the gauge and the bar chart (Chart.js is a foreign library);
  - `prefillExample`, the clear button and the input listeners. The live EMI preview only calls `computeEMI`, which is modelled.
- `generateCSV` is not modelled. It depends on the current date, file download and JavaScript number formatting.
- Display formatting is not modelled, because the model keeps exact amounts. This covers `toINR`/`toLocaleString`, `toFixed(1)` and `toFixed(2)`, and the score text in the result box.
- `lastResult` is not modelled. It is mutable page state shared between the assess and export handlers.
- `getFormData` is not modelled: reading and trimming inputs, `+value` parsing, and the `|| 0` defaults. `LoanForm.Form` holds the already-parsed values. A non-numeric input (NaN) is outside the model.
- IEEE-754 behaviour is not modelled: NaN and Infinity propagation, rounding, and `Math.pow` precision. All arithmetic is exact.
- Tenure is an integer. The source accepts a fractional month count.
- Config.EmpRate: the model's keys exclude the names `EMP_RATE` inherits from `Object.prototype` ("constructor", "toString", "valueOf", ...). For such a key the source reads a function, which is truthy, so `computeProbability` scores NaN. `Scoring.ProbabilityAlwaysFull` and the finding below hold for the table keys and every other key the page's employment field can send.
- Decision.BoxAndRecommendationAgree: holds for every numeric score only. For a NaN score both comparisons are false, so `renderResult` shows the risky box while the recommendation reads "Loan likely to be approved.". A NaN score is reachable after validation, for example with co-income and debts both entered as 1e400 (Infinity − Infinity), or with an inherited key as above.
- Emi.ComputeEmi: requires the rate, when present, to be non-negative. All table rates are.
- Amortization.GetAmortization: takes a defined, non-negative rate. For an unknown employment key the source builds rows full of NaN. `Assessment.Assemble` reports that case as a missing schedule instead.
- Amortization.ScheduleBalances: stated only for P ≥ 0 and a rate ≥ 0. The source makes no promise for negative amounts.
- Scoring.ComputeProbability: requires a non-zero loan amount and income. Its only caller validates the form first. For zeros the source would divide by zero and produce Infinity or NaN.
- Scoring.Breakdown: requires additionally a non-zero tenure, which validation guarantees.
- Assessment.IncomeOrOne: the source applies `|| 1` to the raw income text. After validation that text is non-empty and numerically equal to the parsed income, which is what the model uses.
- The sample EMI of about 9577 (300000 at 9.5% over 36 months) is not proved numerically. Checking it needs the exact 36th power of 2419/2400.

## Findings

| source | as written | input that shows it | evidently intended | confidence | as-written member | corrected member |
|---|---|---|---|---|---|---|
| script.js:89-96 | the credit term is the credit score clamped to 300..900 but not rescaled, times 40/100, so the weighted sum is always at least 120 and the clamped score is always 100 | income 50000, loan 12000000 (20 times the annual income), credit score 320, tenure 36, age 32, salaried: scored 100, "likely approved" | the credit sub-score on the 0..100 scale the breakdown shows (score/9, script.js:162), giving a score in 0..100; the same applicant then scores about 27 and is flagged for review | high; not executed | Scoring.ProbabilityAlwaysFull | Scoring.IntendedProbability |

`Assessment.AssessLoan` keeps the behaviour as written.
`Assessment.AssessLoanCorrected` runs the same composition with the corrected score.
`Assessment.RiskyApprovedAsWritten` and `Assessment.RiskyFlaggedWhenCorrected` exhibit the applicant above under each score.

=== FILE: amortization.dfy ===
/** The amortization table of `getAmortization`: one row per month, built
    from a running balance that is floored at zero. */
module Amortization {
  import opened Optional
  import opened Numeric
  import opened Emi

  /** One month of the table. The source renders the amounts with two
      decimals; the model keeps them exact. */
  datatype Row = Row(
    month: int,
    principal: real,
    interest: real,
    cumulativePrincipal: real,
    cumulativeInterest: real,
    balance: real)

  /** One pass of the source's loop: interest on the balance, the rest of the
      payment off the principal, the new balance floored at zero, and the
      running totals. */
  function MonthRow(p: real, r: real, emi: real, month: int, balance: real, paidInterest: real): (row: Row)
    ensures row.month == month
    ensures row.principal + row.interest == emi
    ensures row.balance >= 0.0
    ensures row.balance >= balance - row.principal
    ensures Repay(balance, r, emi) >= 0.0 ==> row.balance == Repay(balance, r, emi)
    ensures Repay(balance, r, emi) < 0.0 ==> row.balance == 0.0
    ensures row.cumulativePrincipal == p - row.balance
    ensures row.cumulativeInterest - paidInterest == row.interest
  {
    var interest := balance * r;
    var principal := emi - interest;
    var next := Max(0.0, balance - principal);
    Row(month, principal, interest, p - next, paidInterest + interest, next)
  }

  /** The rows for months `month`, `month + 1`, ... (`count` of them), starting
      from `balance` owed and `paidInterest` already paid; each row's balance
      and interest total carry into the next. */
  function Rows(p: real, r: real, emi: real, month: int, count: nat, balance: real, paidInterest: real): (rows: seq<Row>)
    ensures |rows| == count
    ensures forall i :: 0 <= i < count ==> rows[i].month == month + i
    decreases count
  {
    if count == 0 then []
    else
      var row := MonthRow(p, r, emi, month, balance, paidInterest);
      [row] + Rows(p, r, emi, month + 1, count - 1, row.balance, row.cumulativeInterest)
  }

  /** `getAmortization(P, rAnnual, months)` for a defined annual rate. The
      source recomputes `computeEMI(P, rAnnual, months)` on every pass of its
      loop; the value never changes, so it is computed once here. */
  function GetAmortization(p: real, annualRate: real, months: int): (rows: seq<Row>)
    requires annualRate >= 0.0
    ensures |rows| == if months > 0 then months else 0
    ensures forall i :: 0 <= i < |rows| ==> rows[i].month == i + 1
  {
    Rows(p, MonthlyRate(annualRate), ComputeEmi(p, Some(annualRate), months), 1,
         if months > 0 then months else 0, p, 0.0)
  }

  /** The sum of the `interest` column. */
  function InterestSum(rows: seq<Row>): real
  {
    if |rows| == 0 then 0.0 else rows[0].interest + InterestSum(rows[1..])
  }

  /** The first row of a table and the table that follows it. */
  lemma RowsCons(p: real, r: real, emi: real, month: int, count: nat, balance: real, paidInterest: real)
    requires count > 0
    ensures var rows := Rows(p, r, emi, month, count, balance, paidInterest);
      var row := MonthRow(p, r, emi, month, balance, paidInterest);
      && rows[0] == row
      && rows[1..] == Rows(p, r, emi, month + 1, count - 1, row.balance, row.cumulativeInterest)
  {
  }

  /** Every row splits the payment into its principal and interest parts,
      reports as cumulative principal what has left the original principal,
      and carries the running total of the interest column. */
  lemma {:induction false} RowsBookkeeping(p: real, r: real, emi: real, month: int, count: nat, balance: real, paidInterest: real)
    ensures var rows := Rows(p, r, emi, month, count, balance, paidInterest);
      forall i :: 0 <= i < |rows| ==>
        && rows[i].principal + rows[i].interest == emi
        && rows[i].cumulativePrincipal == p - rows[i].balance
        && rows[i].cumulativeInterest == paidInterest + InterestSum(rows[..i + 1])
    decreases count
  {
    if count > 0 {
      var rows := Rows(p, r, emi, month, count, balance, paidInterest);
      var row := MonthRow(p, r, emi, month, balance, paidInterest);
      var rest := Rows(p, r, emi, month + 1, count - 1, row.balance, row.cumulativeInterest);
      RowsCons(p, r, emi, month, count, balance, paidInterest);
      RowsBookkeeping(p, r, emi, month + 1, count - 1, row.balance, row.cumulativeInterest);
      forall i | 0 <= i < |rows|
        ensures rows[i].principal + rows[i].interest == emi
        ensures rows[i].cumulativePrincipal == p - rows[i].balance
        ensures rows[i].cumulativeInterest == paidInterest + InterestSum(rows[..i + 1])
      {
        if i > 0 {
          assert rows[i] == rest[i - 1];
          assert rows[..i + 1][1..] == rest[..i];
        }
      }
    }
  }

  /** One month keeps the balance between zero and its previous value while
      the payment covers the interest on the original principal. */
  lemma MonthRowBalance(p: real, r: real, emi: real, month: int, balance: real, paidInterest: real)
    requires r >= 0.0 && emi >= p * r && 0.0 <= balance <= p
    ensures 0.0 <= MonthRow(p, r, emi, month, balance, paidInterest).balance <= balance
    ensures MonthRow(p, r, emi, month, balance, paidInterest).interest >= 0.0
  {
    assert balance * r <= p * r by {
      assert (p - balance) * r >= 0.0;
    }
  }

  /** While the payment covers the interest on the original principal, the
      balance of row i lies between zero and the balance before it, and row i
      charges no negative interest. */
  lemma {:induction false} RowBalanceAt(p: real, r: real, emi: real, month: int, count: nat, balance: real, paidInterest: real, i: nat)
    requires r >= 0.0 && emi >= p * r && 0.0 <= balance <= p && i < count
    ensures var rows := Rows(p, r, emi, month, count, balance, paidInterest);
      && 0.0 <= rows[i].balance <= (if i == 0 then balance else rows[i - 1].balance)
      && rows[i].interest >= 0.0
    decreases i
  {
    var rows := Rows(p, r, emi, month, count, balance, paidInterest);
    var row := MonthRow(p, r, emi, month, balance, paidInterest);
    RowsCons(p, r, emi, month, count, balance, paidInterest);
    MonthRowBalance(p, r, emi, month, balance, paidInterest);
    if i > 0 {
      var rest := Rows(p, r, emi, month + 1, count - 1, row.balance, row.cumulativeInterest);
      RowBalanceAt(p, r, emi, month + 1, count - 1, row.balance, row.cumulativeInterest, i - 1);
      assert rows[i] == rest[i - 1];
      assert rows[i - 1] == if i == 1 then row else rest[i - 2];
    }
  }

  /** While the payment covers the interest on the original principal, every
      balance in the table lies between zero and the balance before it, and
      no month charges negative interest. */
  lemma RowsBalanceNonIncreasing(p: real, r: real, emi: real, month: int, count: nat, balance: real, paidInterest: real)
    requires r >= 0.0 && emi >= p * r && 0.0 <= balance <= p
    ensures var rows := Rows(p, r, emi, month, count, balance, paidInterest);
      forall i :: 0 <= i < |rows| ==>
        && 0.0 <= rows[i].balance <= (if i == 0 then balance else rows[i - 1].balance)
        && rows[i].interest >= 0.0
  {
    var rows := Rows(p, r, emi, month, count, balance, paidInterest);
    forall i | 0 <= i < |rows|
      ensures 0.0 <= rows[i].balance <= (if i == 0 then balance else rows[i - 1].balance)
      ensures rows[i].interest >= 0.0
    {
      RowBalanceAt(p, r, emi, month, count, balance, paidInterest, i);
    }
  }

  /** `getAmortization` with a principal and rate that are not negative: the
      balance never goes below zero and never rises, starting from at most P,
      and the interest charged each month is never negative. */
  lemma ScheduleBalances(p: real, annualRate: real, months: int)
    requires p >= 0.0 && annualRate >= 0.0
    ensures var rows := GetAmortization(p, annualRate, months);
      && (forall i :: 0 <= i < |rows| ==> 0.0 <= rows[i].balance <= (if i == 0 then p else rows[i - 1].balance))
      && (forall i :: 0 <= i < |rows| ==> rows[i].interest >= 0.0)
  {
    if months > 0 {
      var r := MonthlyRate(annualRate);
      var emi := ComputeEmi(p, Some(annualRate), months);
      EmiCoversInterest(p, annualRate, months);
      RowsBalanceNonIncreasing(p, r, emi, 1, months, p, 0.0);
      assert GetAmortization(p, annualRate, months) == Rows(p, r, emi, 1, months, p, 0.0);
    }
  }

  /** Over at least one month, the EMI at a defined rate covers the first
      month's interest on a principal that is not negative. This is the last
      ensures of `ComputeEmi` for a defined rate, stated apart so that
      `ScheduleBalances` can use it without unfolding `ComputeEmi`. */
  lemma EmiCoversInterest(p: real, annualRate: real, months: int)
    requires p >= 0.0 && annualRate >= 0.0 && months > 0
    ensures ComputeEmi(p, Some(annualRate), months) >= p * MonthlyRate(annualRate)
  {
  }

  /** From month k + 1 on, when the payment covers the interest on the
      original principal and the unfloored balance `Owed` at month n is not
      negative (so none before it is), row i of the table has exactly the
      balance `Owed` gives for its month. */
  lemma {:induction false} RowFollowsOwed(p: real, r: real, emi: real, k: nat, n: nat, paidInterest: real, i: nat)
    requires k + i < n
    requires r >= 0.0 && emi >= p * r && Owed(p, r, emi, n) >= 0.0
    ensures Rows(p, r, emi, k + 1, n - k, Owed(p, r, emi, k), paidInterest)[i].balance == Owed(p, r, emi, k + 1 + i)
    decreases i
  {
    var b := Owed(p, r, emi, k);
    var row := MonthRow(p, r, emi, k + 1, b, paidInterest);
    assert Owed(p, r, emi, k + 1) == Repay(b, r, emi);
    OwedAtLeastLater(p, r, emi, k + 1, n);
    RowsCons(p, r, emi, k + 1, n - k, b, paidInterest);
    var rows := Rows(p, r, emi, k + 1, n - k, b, paidInterest);
    if i > 0 {
      var rest := Rows(p, r, emi, k + 2, n - (k + 1), Owed(p, r, emi, k + 1), row.cumulativeInterest);
      assert rows[1..] == rest;
      RowFollowsOwed(p, r, emi, k + 1, n, row.cumulativeInterest, i - 1);
      assert rows[i] == rest[i - 1];
      assert k + 1 + 1 + (i - 1) == k + 1 + i;
    }
  }

  /** `count` payments of `emi`, added up one at a time. */
  function Payments(emi: real, count: nat): real
  {
    if count == 0 then 0.0 else Payments(emi, count - 1) + emi
  }

  /** `count` payments of `emi` come to count·emi. */
  lemma {:induction false} PaymentsTotal(emi: real, count: nat)
    ensures Payments(emi, count) == count as real * emi
  {
    if count > 0 {
      PaymentsTotal(emi, count - 1);
    }
  }

  /** Under the conditions of `RowFollowsOwed`, the interest paid up to row i
      is the payments made so far less the principal repaid. */
  lemma {:induction false} InterestFollowsOwed(p: real, r: real, emi: real, k: nat, n: nat, paidInterest: real, i: nat)
    requires k + i < n
    requires r >= 0.0 && emi >= p * r && Owed(p, r, emi, n) >= 0.0
    ensures Rows(p, r, emi, k + 1, n - k, Owed(p, r, emi, k), paidInterest)[i].cumulativeInterest
            == paidInterest + Payments(emi, i + 1) - (Owed(p, r, emi, k) - Owed(p, r, emi, k + 1 + i))
    decreases i
  {
    var b := Owed(p, r, emi, k);
    var row := MonthRow(p, r, emi, k + 1, b, paidInterest);
    assert Owed(p, r, emi, k + 1) == Repay(b, r, emi);
    OwedAtLeastLater(p, r, emi, k + 1, n);
    RowsCons(p, r, emi, k + 1, n - k, b, paidInterest);
    var rows := Rows(p, r, emi, k + 1, n - k, b, paidInterest);
    if i > 0 {
      var rest := Rows(p, r, emi, k + 2, n - (k + 1), Owed(p, r, emi, k + 1), row.cumulativeInterest);
      assert rows[1..] == rest;
      InterestFollowsOwed(p, r, emi, k + 1, n, row.cumulativeInterest, i - 1);
      assert rows[i] == rest[i - 1];
      assert k + 1 + 1 + (i - 1) == k + 1 + i;
      assert Payments(emi, i + 1) == Payments(emi, i) + emi;
    }
  }

  /** A table whose payment settles the loan after n months, when the payment
      covers the interest on the original principal: every balance is the
      unfloored `Owed`, the last one is zero, and the last cumulative interest
      is everything paid less the loan. */
  lemma SettlingRows(p: real, r: real, emi: real, n: nat)
    requires n >= 1 && r >= 0.0 && emi >= p * r
    requires Owed(p, r, emi, n) == 0.0
    ensures var rows := Rows(p, r, emi, 1, n, p, 0.0);
      && (forall i :: 0 <= i < n ==> rows[i].balance == Owed(p, r, emi, i + 1))
      && rows[n - 1].balance == 0.0
      && rows[n - 1].cumulativePrincipal == p
      && rows[n - 1].cumulativeInterest == emi * n as real - p
  {
    var rows := Rows(p, r, emi, 1, n, p, 0.0);
    forall i | 0 <= i < n
      ensures rows[i].balance == Owed(p, r, emi, i + 1)
    {
      RowFollowsOwed(p, r, emi, 0, n, 0.0, i);
    }
    InterestFollowsOwed(p, r, emi, 0, n, 0.0, n - 1);
    PaymentsTotal(emi, n);
    RowsBookkeeping(p, r, emi, 1, n, p, 0.0);
  }

  /** Over exact numbers the floor at zero never fires: for a principal and
      rate that are not negative and at least one month, every row's balance
      is the unfloored balance `Owed`, the last row owes nothing, its
      cumulative principal is the whole loan, and its cumulative interest is
      everything paid (emi·months) less the loan. */
  lemma ScheduleSettles(p: real, annualRate: real, months: int)
    requires p >= 0.0 && annualRate >= 0.0 && months >= 1
    ensures var rows := GetAmortization(p, annualRate, months);
      var r := MonthlyRate(annualRate);
      var emi := ComputeEmi(p, Some(annualRate), months);
      && (forall i :: 0 <= i < months ==> rows[i].balance == Owed(p, r, emi, i + 1))
      && rows[months - 1].balance == 0.0
      && rows[months - 1].cumulativePrincipal == p
      && rows[months - 1].cumulativeInterest == emi * months as real - p
  {
    var r := MonthlyRate(annualRate);
    var emi := ComputeEmi(p, Some(annualRate), months);
    assert GetAmortization(p, annualRate, months) == Rows(p, r, emi, 1, months, p, 0.0);
    EmiCoversInterest(p, annualRate, months);
    EmiSettlesLoan(p, annualRate, months);
    SettlingRows(p, r, emi, months);
  }

  /** A column of interest amounts that are none of them negative sums to a
      total that is not negative. */
  lemma {:induction false} InterestSumNonNegative(rows: seq<Row>)
    requires forall i :: 0 <= i < |rows| ==> rows[i].interest >= 0.0
    ensures InterestSum(rows) >= 0.0
  {
    if |rows| > 0 {
      InterestSumNonNegative(rows[1..]);
    }
  }

  /** Everything paid over the schedule (emi·months) exceeds the loan by
      exactly the sum of the interest column, which is never negative. */
  lemma ScheduleInterestTotal(p: real, annualRate: real, months: int)
    requires p >= 0.0 && annualRate >= 0.0 && months >= 1
    ensures var rows := GetAmortization(p, annualRate, months);
      && ComputeEmi(p, Some(annualRate), months) * months as real - p == InterestSum(rows)
      && InterestSum(rows) >= 0.0
  {
    var r := MonthlyRate(annualRate);
    var emi := ComputeEmi(p, Some(annualRate), months);
    var rows := GetAmortization(p, annualRate, months);
    assert rows == Rows(p, r, emi, 1, months, p, 0.0);
    ScheduleSettles(p, annualRate, months);
    RowsBookkeeping(p, r, emi, 1, months, p, 0.0);
    assert rows[..months] == rows;
    ScheduleBalances(p, annualRate, months);
    InterestSumNonNegative(rows);
  }
}

=== FILE: assessment.dfy ===
/** `assessLoan`: validate the form, price the loan, score it, decide, and
    lay out the repayment schedule, with the employment rate doubling as the
    annual interest rate. */
module Assessment {
  import opened Optional
  import opened Config
  import opened Emi
  import opened Amortization
  import opened LoanForm
  import opened Scoring
  import opened Decision

  /** The KPI figures of `updateKPIs`, as numbers (the source formats them
      for display). */
  datatype Kpis = Kpis(
    emi: real,
    emiToIncome: real,
    loanToAnnualIncome: real,
    totalRepayment: real,
    totalInterest: real)

  /** `income || 1`: a zero income counts as one. */
  function IncomeOrOne(income: real): (d: real)
    ensures d != 0.0
    ensures income != 0.0 ==> d == income
  {
    if income == 0.0 then 1.0 else income
  }

  /** `updateKPIs(emi, P, tenure)`: everything repaid over the tenure, the
      part of it that is interest, and the payment and the loan as
      percentages of the monthly and the annual income. */
  function UpdateKpis(emi: real, p: real, tenure: int, income: real): (k: Kpis)
    ensures k.emi == emi
    ensures k.totalRepayment == emi * tenure as real
    ensures k.totalInterest + p == k.totalRepayment
    ensures income != 0.0 ==> k.emiToIncome * income == emi * 100.0
    ensures income != 0.0 ==> k.loanToAnnualIncome * (income * 12.0) == p * 100.0
  {
    var totalRepayment := emi * tenure as real;
    Kpis(emi, emi / IncomeOrOne(income) * 100.0, p / (IncomeOrOne(income) * 12.0) * 100.0,
         totalRepayment, totalRepayment - p)
  }

  /** KPI totals for a payment of `emi` on a loan of `p` over `tenure`
      months: the repayment is one payment a month, and the interest is what
      the repayment exceeds the loan by. Both follow from `UpdateKpis`'s
      contract; naming them keeps the EMI's nonlinear facts out of the proof
      that an assessment's figures meet them. */
  predicate KpiTotals(k: Kpis, emi: real, p: real, tenure: int)
  {
    k.totalRepayment == emi * tenure as real && k.totalInterest == k.totalRepayment - p
  }

  /** The totals `updateKPIs` shows meet `KpiTotals`. */
  lemma UpdateKpisTotals(emi: real, p: real, tenure: int, income: real)
    ensures KpiTotals(UpdateKpis(emi, p, tenure, income), emi, p, tenure)
  {
  }

  /** The outcome of pressing "assess": nothing for a form that fails the
      required-field check, otherwise every figure the page shows. The
      schedule is missing when the employment key has no rate (the source
      then fills the table with NaN). */
  datatype Assessment =
    | Invalid
    | Assessed(
        emi: real,
        kpis: Kpis,
        probability: real,
        factors: Factors,
        verdict: Verdict,
        recommendation: string,
        schedule: Option<seq<Row>>)

  /** The figures of a valid form scored `prob`. */
  function Assemble(form: Form, prob: real): (a: Assessment)
    requires Complete(form)
    ensures a.Assessed? && a.probability == prob
  {
    var rate := EmpRate(form.employment);
    var emi := ComputeEmi(form.loanAmount, rate, form.tenure);
    Assessed(
      emi,
      UpdateKpis(emi, form.loanAmount, form.tenure, form.income),
      prob,
      Breakdown(form),
      ResultBox(prob),
      RecommendationText(Recommendations(prob)),
      if rate.Some? then Some(GetAmortization(form.loanAmount, rate.value, form.tenure)) else None)
  }

  /** What every assessment of a valid form satisfies, whatever its score:
      its figures and its schedule are both well formed. */
  predicate WellFormed(form: Form, a: Assessment)
    requires Complete(form)
  {
    FiguresWellFormed(form, a) && ScheduleWellFormed(form, a)
  }

  /** The figures of an assessment: the EMI is priced at the employment
      rate, the KPIs are those of that EMI, the factors are the breakdown of
      the form, and the verdict and the recommendation follow the
      threshold. */
  predicate FiguresWellFormed(form: Form, a: Assessment)
    requires Complete(form)
  {
    && a.Assessed?
    && a.emi == ComputeEmi(form.loanAmount, EmpRate(form.employment), form.tenure)
    && a.kpis == UpdateKpis(a.emi, form.loanAmount, form.tenure, form.income)
    && a.factors == Breakdown(form)
    && KpiTotals(a.kpis, a.emi, form.loanAmount, form.tenure)
    && (a.verdict == LikelyApproved <==> a.probability >= THRESHOLD)
    && (a.recommendation == APPROVED_REC <==> a.probability >= THRESHOLD)
    && (a.recommendation == REVIEW_REC <==> a.probability < THRESHOLD)
  }

  /** The schedule of an assessment exists exactly for a known employment
      key, is the amortization table at that key's rate and has one row per
      month, and for a positive loan and tenure it ends owing nothing, with
      its interest column adding up to the KPI total interest, which is
      never negative. */
  predicate ScheduleWellFormed(form: Form, a: Assessment)
  {
    && a.Assessed?
    && (a.schedule.Some? <==> form.employment in EMPLOYMENT_KEYS)
    && (a.schedule.Some? ==>
          a.schedule.value == GetAmortization(form.loanAmount, EmpRate(form.employment).value, form.tenure))
    && (a.schedule.Some? ==> SettledSchedule(form.loanAmount, form.tenure, a.kpis, a.schedule.value))
  }

  /** A schedule with one row per month of the tenure which, for a positive
      loan and tenure, ends owing nothing, having repaid the whole loan, with
      an interest column that adds up to the KPI total interest, never
      negative. */
  predicate SettledSchedule(p: real, tenure: int, kpis: Kpis, rows: seq<Row>)
  {
    && |rows| == (if tenure > 0 then tenure else 0)
    && (p > 0.0 && tenure > 0 ==>
          && rows[|rows| - 1].balance == 0.0
          && rows[|rows| - 1].cumulativePrincipal == p
          && rows[|rows| - 1].cumulativeInterest == kpis.totalInterest
          && InterestSum(rows) == kpis.totalInterest
          && kpis.totalInterest >= 0.0)
  }

  /** The schedule at a table rate agrees with the KPI totals computed from
      the same payment. */
  lemma ScheduleAgreesWithKpis(p: real, annualRate: real, tenure: int, income: real)
    requires annualRate >= 0.0
    ensures var emi := ComputeEmi(p, Some(annualRate), tenure);
      SettledSchedule(p, tenure, UpdateKpis(emi, p, tenure, income), GetAmortization(p, annualRate, tenure))
  {
    if p > 0.0 && tenure > 0 {
      ScheduleSettles(p, annualRate, tenure);
      ScheduleInterestTotal(p, annualRate, tenure);
    }
  }

  /** The figures `Assemble` lays out are well formed for every score. */
  lemma AssembleFigures(form: Form, prob: real)
    requires Complete(form)
    ensures FiguresWellFormed(form, Assemble(form, prob))
  {
    var a := Assemble(form, prob);
    var emi := ComputeEmi(form.loanAmount, EmpRate(form.employment), form.tenure);
    UpdateKpisTotals(emi, form.loanAmount, form.tenure, form.income);
    assert a.emi == emi && a.kpis == UpdateKpis(emi, form.loanAmount, form.tenure, form.income);
    assert a.verdict == ResultBox(prob) && a.recommendation == RecommendationText(Recommendations(prob));
  }

  /** The schedule `Assemble` lays out is well formed for every score. */
  lemma AssembleSchedule(form: Form, prob: real)
    requires Complete(form)
    ensures ScheduleWellFormed(form, Assemble(form, prob))
  {
    var a := Assemble(form, prob);
    var rate := EmpRate(form.employment);
    var emi := ComputeEmi(form.loanAmount, rate, form.tenure);
    assert a.kpis == UpdateKpis(emi, form.loanAmount, form.tenure, form.income);
    if rate.Some? {
      assert a.schedule == Some(GetAmortization(form.loanAmount, rate.value, form.tenure));
      ScheduleAgreesWithKpis(form.loanAmount, rate.value, form.tenure, form.income);
    }
  }

  /** `Assemble` meets `WellFormed` for every score. */
  lemma AssembleWellFormed(form: Form, prob: real)
    requires Complete(form)
    ensures WellFormed(form, Assemble(form, prob))
  {
    AssembleFigures(form, prob);
    AssembleSchedule(form, prob);
  }

  /** `assessLoan` as written: an invalid form produces nothing; a valid
      one is assessed with `computeProbability`, which scores every form 100,
      so every valid form is reported as likely to be approved. */
  method AssessLoan(form: Form) returns (a: Assessment)
    ensures a.Invalid? <==> !Complete(form)
    ensures a.Assessed? ==> WellFormed(form, a)
    ensures a.Assessed? ==> a.probability == 100.0 && a.verdict == LikelyApproved
  {
    var valid := ValidateForm(form);
    if !valid {
      return Invalid;
    }
    var prob := ComputeProbability(form);
    ProbabilityAlwaysFull(form);
    a := Assemble(form, prob);
    AssembleWellFormed(form, prob);
  }

  /** `assessLoan` with the corrected score: the same figures, but the
      verdict follows the weighted breakdown sub-scores. */
  method AssessLoanCorrected(form: Form) returns (a: Assessment)
    ensures a.Invalid? <==> !Complete(form)
    ensures a.Assessed? ==> WellFormed(form, a)
    ensures a.Assessed? ==> a.probability == IntendedProbability(form)
    ensures a.Assessed? ==> 0.0 <= a.probability <= 100.0
  {
    var valid := ValidateForm(form);
    if !valid {
      return Invalid;
    }
    var prob := IntendedProbability(form);
    a := Assemble(form, prob);
    AssembleWellFormed(form, prob);
  }

  /** The sample applicant: a salaried borrower of 300000 over 36 months. */
  const SAMPLE: Form := Form("Rahul Sharma", "salaried", 50000.0, 300000.0, 36, 720.0, 32.0,
                             "Home repair", 20000.0, 5000.0)

  /** A borrower asking for twenty times their annual income with a credit
      score of 320. */
  const RISKY: Form := Form("Applicant", "salaried", 50000.0, 12000000.0, 36, 320.0, 32.0,
                            "Home repair", 0.0, 0.0)

  /** The sample applicant is approved by both scores. */
  lemma SampleApproved()
    ensures Complete(SAMPLE)
    ensures ComputeProbability(SAMPLE) == 100.0
    ensures IntendedProbability(SAMPLE) >= THRESHOLD
    ensures ResultBox(IntendedProbability(SAMPLE)) == LikelyApproved
  {
    ProbabilityAlwaysFull(SAMPLE);
    var s := IntendedScores(SAMPLE);
    assert s.credit == 80.0;
    assert s.affordability == 100.0;
    assert s.loanSize == 50.0;
  }

  /** As written, the risky applicant still scores 100 and is reported as
      likely to be approved. */
  lemma RiskyApprovedAsWritten()
    ensures Complete(RISKY)
    ensures ComputeProbability(RISKY) == 100.0
    ensures ResultBox(ComputeProbability(RISKY)) == LikelyApproved
  {
    ProbabilityAlwaysFull(RISKY);
  }

  /** With the corrected score the risky applicant falls below the
      threshold and is flagged for review. */
  lemma RiskyFlaggedWhenCorrected()
    ensures IntendedProbability(RISKY) < THRESHOLD
    ensures ResultBox(IntendedProbability(RISKY)) == Risky
    ensures RecommendationText(Recommendations(IntendedProbability(RISKY))) == REVIEW_REC
  {
  }
}

=== FILE: config.dfy ===
/** The fixed tables of the engine: factor weights, the approval threshold and
    the per-employment risk rate, which also serves as the annual interest rate. */
module Config {
  import opened Optional

  /** Weights of the five factors, in percent. */
  datatype Weights = Weights(credit: real, affordability: real, loanSize: real, employment: real, age: real)
  {
    function Total(): real
    {
      credit + affordability + loanSize + employment + age
    }

    /** No weight is negative. */
    predicate NonNegative()
    {
      credit >= 0.0 && affordability >= 0.0 && loanSize >= 0.0 && employment >= 0.0 && age >= 0.0
    }
  }

  const WEIGHTS: Weights := Weights(40.0, 35.0, 15.0, 7.0, 3.0)

  /** Scores at or above this value are "likely approved". */
  const THRESHOLD: real := 65.0

  /** The employment keys the rate table knows. */
  const EMPLOYMENT_KEYS: set<string> := {"govt", "salaried", "self", "student"}

  /** `EMP_RATE[key]`: the annual risk/interest rate of an employment type, and
      `None` (JavaScript `undefined`) for any other key the page's employment
      field can send; the names an object literal inherits, such as
      "constructor", are not among them. */
  function EmpRate(key: string): (rate: Option<real>)
    ensures rate.Some? <==> key in EMPLOYMENT_KEYS
    ensures rate.Some? ==> 0.085 <= rate.value <= 0.14
    ensures key == "govt" ==> rate == Some(0.085)
    ensures key == "salaried" ==> rate == Some(0.095)
    ensures key == "self" ==> rate == Some(0.11)
    ensures key == "student" ==> rate == Some(0.14)
  {
    if key == "govt" then Some(0.085)
    else if key == "salaried" then Some(0.095)
    else if key == "self" then Some(0.11)
    else if key == "student" then Some(0.14)
    else None
  }

  /** The five weights split 100 percent between them. */
  lemma WeightsTotalHundred()
    ensures WEIGHTS.Total() == 100.0
  {
  }
}

=== FILE: decision.dfy ===
/** The two-way verdict on an approval score: the result box of
    `renderResult` and the recommendation line of `assessLoan`. */
module Decision {
  import opened Config

  /** The two result boxes: "likely to be approved" and "may be risky". */
  datatype Verdict = LikelyApproved | Risky

  const APPROVED_REC: string := "Loan likely to be approved."
  const REVIEW_REC: string := "Consider reducing loan amount or improving credit score."

  /** The result box of `renderResult`: a score at or above the threshold
      is likely to be approved, any lower score is risky. */
  function ResultBox(prob: real): (v: Verdict)
    ensures v == LikelyApproved <==> prob >= THRESHOLD
    ensures v == Risky <==> prob < THRESHOLD
  {
    if prob >= THRESHOLD then LikelyApproved else Risky
  }

  /** The recommendation list of `assessLoan`, decided with the opposite
      comparison (`prob < THRESHOLD`); it always holds one of the two
      messages. */
  function Recommendations(prob: real): (recs: seq<string>)
    ensures |recs| == 1
    ensures recs[0] == REVIEW_REC <==> prob < THRESHOLD
    ensures recs[0] == APPROVED_REC <==> prob >= THRESHOLD
  {
    if prob < THRESHOLD then [REVIEW_REC] else [APPROVED_REC]
  }

  /** `recs.join(' ')`: the recommendation text shown. */
  function RecommendationText(recs: seq<string>): (text: string)
    ensures |recs| == 1 ==> text == recs[0]
  {
    if |recs| == 0 then ""
    else if |recs| == 1 then recs[0]
    else recs[0] + " " + RecommendationText(recs[1..])
  }

  /** The message that goes with each verdict. */
  function MessageFor(v: Verdict): string
  {
    match v
    case LikelyApproved => APPROVED_REC
    case Risky => REVIEW_REC
  }

  /** The result box and the recommendation, though decided by two separate
      comparisons, never disagree. */
  lemma BoxAndRecommendationAgree(prob: real)
    ensures RecommendationText(Recommendations(prob)) == MessageFor(ResultBox(prob))
  {
  }

  /** A higher score never turns an approval into a risk. */
  lemma VerdictMonotone(prob: real, higher: real)
    requires prob <= higher && ResultBox(prob) == LikelyApproved
    ensures ResultBox(higher) == LikelyApproved
  {
  }
}

=== FILE: emi.dfy ===
/** The equated monthly instalment (EMI) of an amortising loan, and the balance
    such a payment leaves owing month by month. */
module Emi {
  import opened Optional
  import opened Numeric

  /** The monthly rate derived from an annual rate. */
  function MonthlyRate(annualRate: real): real
  {
    annualRate / 12.0
  }

  /** The rates `computeEMI` is ever given: a table rate, which is never
      negative, or a missing one. */
  predicate RateOk(annualRate: Option<real>)
  {
    annualRate.Some? ==> annualRate.value >= 0.0
  }

  /** True when the monthly rate is a truthy JavaScript number, so that the
      annuity formula rather than plain division is used. */
  predicate InterestBearing(annualRate: Option<real>)
  {
    annualRate.Some? && MonthlyRate(annualRate.value) != 0.0
  }

  /** The discount 1 - (1+r)^-n of the annuity formula, for a non-negative
      monthly rate r. */
  function Discount(r: real, n: nat): (d: real)
    requires r >= 0.0
    ensures 0.0 <= d < 1.0
    ensures r > 0.0 && n > 0 ==> d > 0.0
  {
    PowBounds(1.0 + r, n);
    1.0 - 1.0 / Pow(1.0 + r, n)
  }

  /** `computeEMI(P, annualRate, months)`: zero for a zero principal or a
      non-positive tenure; plain division when the monthly rate is zero or
      missing; otherwise the payment that satisfies the annuity equation
      emi·(1 - (1+r)^-months) = P·r. */
  function ComputeEmi(p: real, annualRate: Option<real>, months: int): (emi: real)
    requires RateOk(annualRate)
    ensures p == 0.0 || months <= 0 ==> emi == 0.0
    ensures p != 0.0 && months > 0 && !InterestBearing(annualRate) ==> emi * months as real == p
    ensures p != 0.0 && months > 0 && InterestBearing(annualRate) ==>
              emi * Discount(MonthlyRate(annualRate.value), months) == p * MonthlyRate(annualRate.value)
    ensures p >= 0.0 ==> emi >= 0.0
    ensures p > 0.0 && months > 0 ==> emi > 0.0
    ensures p >= 0.0 && months > 0 && annualRate.Some? ==> emi >= p * MonthlyRate(annualRate.value)
  {
    if p == 0.0 || months <= 0 then 0.0
    else if !InterestBearing(annualRate) then p / months as real
    else
      var r := MonthlyRate(annualRate.value);
      var d := Discount(r, months);
      QuotientAtLeastDividend(p * r, d);
      p * r / d
  }

  /** Dividing a quantity by a factor in (0, 1] can only enlarge it in magnitude. */
  lemma QuotientAtLeastDividend(a: real, d: real)
    requires 0.0 < d <= 1.0
    ensures a >= 0.0 ==> a / d >= a
    ensures a > 0.0 ==> a / d > 0.0
    ensures a < 0.0 ==> a / d < 0.0
    ensures (a / d) * d == a
  {
    var x := a / d;
    assert x * d == a;
    assert x - a == x * (1.0 - d);
  }

  /** The balance still owed after k payments of `emi` at monthly rate `r`,
      each month adding `balance·r` of interest: the running balance of
      `getAmortization` without its floor at zero. */
  function Owed(p: real, r: real, emi: real, k: nat): real
  {
    if k == 0 then p else Repay(Owed(p, r, emi, k - 1), r, emi)
  }

  /** One month on a balance b: the principal part of the payment, emi - b·r,
      is taken off. */
  function Repay(b: real, r: real, emi: real): real
  {
    b - (emi - b * r)
  }

  /** One month of `Owed`: the balance grows by the factor 1 + r, then the payment is taken off. */
  lemma OwedStep(p: real, r: real, emi: real, k: nat)
    requires k > 0
    ensures Owed(p, r, emi, k) == Owed(p, r, emi, k - 1) * (1.0 + r) - emi
  {
    var b := Owed(p, r, emi, k - 1);
    assert Repay(b, r, emi) == b * (1.0 + r) - emi;
  }

  /** At a non-zero rate the owed balance, less the perpetuity value emi/r,
      grows geometrically: Owed(k) - emi/r = (1+r)^k·(p - emi/r). */
  lemma {:induction false} OwedShifted(p: real, r: real, emi: real, k: nat)
    requires r != 0.0
    ensures Owed(p, r, emi, k) - emi / r == Pow(1.0 + r, k) * (p - emi / r)
  {
    if k > 0 {
      OwedShifted(p, r, emi, k - 1);
      ShiftedStep(p, r, emi, k);
    }
  }

  /** The inductive step of `OwedShifted`. */
  lemma ShiftedStep(p: real, r: real, emi: real, k: nat)
    requires r != 0.0 && k > 0
    requires Owed(p, r, emi, k - 1) - emi / r == Pow(1.0 + r, k - 1) * (p - emi / r)
    ensures Owed(p, r, emi, k) - emi / r == Pow(1.0 + r, k) * (p - emi / r)
  {
    OwedStep(p, r, emi, k);
    ShiftAlgebra(Owed(p, r, emi, k - 1), r, emi, emi / r, Pow(1.0 + r, k - 1), p);
  }

  /** The algebra of one month in `OwedShifted`, with c = emi/r and y = (1+r)^(k-1). */
  lemma ShiftAlgebra(b: real, r: real, emi: real, c: real, y: real, p: real)
    requires r * c == emi
    requires b - c == y * (p - c)
    ensures (b * (1.0 + r) - emi) - c == ((1.0 + r) * y) * (p - c)
  {
  }

  /** At a zero rate each payment simply comes off the principal. */
  lemma {:induction false} OwedWithoutInterest(p: real, emi: real, k: nat)
    ensures Owed(p, 0.0, emi, k) == p - k as real * emi
  {
    if k > 0 {
      OwedWithoutInterest(p, emi, k - 1);
    }
  }

  /** The EMI pays the loan off exactly: after `months` payments nothing is owed. */
  lemma EmiSettlesLoan(p: real, annualRate: real, months: nat)
    requires annualRate >= 0.0 && months >= 1
    ensures Owed(p, MonthlyRate(annualRate), ComputeEmi(p, Some(annualRate), months), months) == 0.0
  {
    var r := MonthlyRate(annualRate);
    var emi := ComputeEmi(p, Some(annualRate), months);
    if p == 0.0 || r == 0.0 {
      assert emi * months as real == p;
      SettledWithoutInterest(p, r, emi, months);
    } else {
      SettledWithInterest(p, r, emi, months);
    }
  }

  /** n payments adding up to the principal settle it when no interest accrues,
      either because the rate is zero or because nothing was borrowed or paid. */
  lemma SettledWithoutInterest(p: real, r: real, emi: real, n: nat)
    requires r == 0.0 || (p == 0.0 && emi == 0.0)
    requires emi * n as real == p
    ensures Owed(p, r, emi, n) == 0.0
  {
    if r == 0.0 {
      OwedWithoutInterest(p, emi, n);
    } else {
      OwedShifted(p, r, emi, n);
    }
  }

  /** At a positive rate, n payments satisfying the annuity equation settle the loan. */
  lemma SettledWithInterest(p: real, r: real, emi: real, n: nat)
    requires r > 0.0
    requires emi * Discount(r, n) == p * r
    ensures Owed(p, r, emi, n) == 0.0
  {
    OwedShifted(p, r, emi, n);
    PowBounds(1.0 + r, n);
    AnnuityAlgebra(p, r, emi, Owed(p, r, emi, n), emi / r, Pow(1.0 + r, n), Discount(r, n));
  }

  /** The algebra behind `EmiSettlesLoan` at a positive rate, over plain
      numbers: o is the final balance, c = emi/r, y = (1+r)^n and d the
      discount 1 - 1/y. */
  lemma AnnuityAlgebra(p: real, r: real, emi: real, o: real, c: real, y: real, d: real)
    requires r != 0.0 && y > 0.0
    requires r * c == emi
    requires d == 1.0 - 1.0 / y
    requires emi * d == p * r
    requires o - c == y * (p - c)
    ensures o == 0.0
  {
    assert c * d == p by {
      assert r * (c * d) == r * p;
    }
    assert c * y - c == p * y by {
      assert (c * d) * y == c * y - c;
    }
  }

  /** While the payment covers the interest on the original principal, the
      owed balance never rises and never exceeds the principal. */
  lemma {:induction false} OwedNonIncreasing(p: real, r: real, emi: real, k: nat)
    requires r >= 0.0 && emi >= p * r
    ensures Owed(p, r, emi, k + 1) <= Owed(p, r, emi, k) <= p
  {
    if k > 0 {
      OwedNonIncreasing(p, r, emi, k - 1);
    }
    var b := Owed(p, r, emi, k);
    assert b * r <= p * r;
  }

  /** Hence every balance up to month n is at least the balance at month n. */
  lemma {:induction false} OwedAtLeastLater(p: real, r: real, emi: real, k: nat, n: nat)
    requires r >= 0.0 && emi >= p * r && k <= n
    ensures Owed(p, r, emi, k) >= Owed(p, r, emi, n)
    decreases n - k
  {
    if k < n {
      OwedNonIncreasing(p, r, emi, k);
      OwedAtLeastLater(p, r, emi, k + 1, n);
    }
  }
}

=== FILE: form.dfy ===
/** The applicant form as the engine receives it, and the required-field
    check that decides whether an assessment runs at all. */
module LoanForm {

  /** The numbers and texts read from the form. Text fields are already
      trimmed; co-income and debts are already defaulted to zero. */
  datatype Form = Form(
    name: string,
    employment: string,
    income: real,
    loanAmount: real,
    tenure: int,
    creditScore: real,
    age: real,
    purpose: string,
    coIncome: real,
    debts: real)

  /** The six fields the check requires. */
  datatype Field = Name | Income | LoanAmount | Tenure | CreditScore | Age

  const REQUIRED_FIELDS: seq<Field> := [Name, Income, LoanAmount, Tenure, CreditScore, Age]

  /** JavaScript truthiness of one required field: a non-empty string, or a
      non-zero number. */
  predicate Truthy(form: Form, f: Field)
  {
    match f
    case Name => form.name != ""
    case Income => form.income != 0.0
    case LoanAmount => form.loanAmount != 0.0
    case Tenure => form.tenure != 0
    case CreditScore => form.creditScore != 0.0
    case Age => form.age != 0.0
  }

  /** Every required field is filled in. */
  predicate Complete(form: Form)
  {
    && form.name != ""
    && form.income != 0.0
    && form.loanAmount != 0.0
    && form.tenure != 0
    && form.creditScore != 0.0
    && form.age != 0.0
  }

  /** `validateForm`: walks the required fields, clearing `valid` at every
      field that is not truthy. The form passes exactly when all six are. */
  method ValidateForm(form: Form) returns (valid: bool)
    ensures valid <==> Complete(form)
  {
    valid := true;
    for i := 0 to |REQUIRED_FIELDS|
      invariant valid <==> forall j :: 0 <= j < i ==> Truthy(form, REQUIRED_FIELDS[j])
    {
      if !Truthy(form, REQUIRED_FIELDS[i]) {
        valid := false;
      }
    }
    CompleteMeansAllTruthy(form);
  }

  /** A form is complete exactly when each required field, in turn, is truthy. */
  lemma CompleteMeansAllTruthy(form: Form)
    ensures Complete(form) <==> forall j :: 0 <= j < |REQUIRED_FIELDS| ==> Truthy(form, REQUIRED_FIELDS[j])
  {
    assert REQUIRED_FIELDS[0] == Name && REQUIRED_FIELDS[1] == Income && REQUIRED_FIELDS[2] == LoanAmount;
    assert REQUIRED_FIELDS[3] == Tenure && REQUIRED_FIELDS[4] == CreditScore && REQUIRED_FIELDS[5] == Age;
  }
}

=== FILE: numeric.dfy ===
/** Exact real arithmetic used by the loan engine: the `clamp` helper, and the
    natural-number power that the annuity formula rests on. */
module Numeric {

  /** JavaScript's Math.min on two defined numbers. */
  function Min(a: real, b: real): (m: real)
    ensures m <= a && m <= b
    ensures m == a || m == b
  {
    if a <= b then a else b
  }

  /** JavaScript's Math.max on two defined numbers. */
  function Max(a: real, b: real): (m: real)
    ensures m >= a && m >= b
    ensures m == a || m == b
  {
    if a >= b then a else b
  }

  /** `clamp(v, a, b) = Math.max(a, Math.min(b, v))`. When the bounds are in
      order the result lies between them and an in-range value is kept; when
      they are not, the lower bound wins. */
  function Clamp(v: real, lo: real, hi: real): (c: real)
    ensures lo <= hi ==> lo <= c <= hi
    ensures lo <= v <= hi ==> c == v
    ensures v <= lo ==> c == lo
    ensures lo <= hi <= v ==> c == hi
    ensures hi < lo ==> c == lo
  {
    Max(lo, Min(hi, v))
  }

  /** Clamping to fixed bounds never reverses the order of two values. */
  lemma ClampMonotone(v: real, w: real, lo: real, hi: real)
    requires v <= w
    ensures Clamp(v, lo, hi) <= Clamp(w, lo, hi)
  {
  }

  /** x raised to a natural power. */
  function Pow(x: real, n: nat): real
  {
    if n == 0 then 1.0 else x * Pow(x, n - 1)
  }

  /** Powers of a base of at least one stay at least one, and grow past one
      for a base above one; positive bases give positive powers. */
  lemma {:induction false} PowBounds(x: real, n: nat)
    ensures x == 1.0 ==> Pow(x, n) == 1.0
    ensures x > 0.0 ==> Pow(x, n) > 0.0
    ensures x >= 1.0 ==> Pow(x, n) >= 1.0
    ensures x > 1.0 && n > 0 ==> Pow(x, n) > 1.0
  {
    if n > 0 {
      PowBounds(x, n - 1);
      var p := Pow(x, n - 1);
      assert x >= 1.0 ==> x * p >= p;
    }
  }

  /** Dividing by a positive number keeps the order of two values. */
  lemma DivideKeepsOrder(a: real, b: real, d: real)
    requires d > 0.0 && a <= b
    ensures a / d <= b / d
  {
    assert b / d - a / d == (b - a) / d;
  }

  /** A quotient of a value in [0, d] by a positive d lies in [0, 1]. */
  lemma FractionInUnit(a: real, d: real)
    requires d > 0.0 && 0.0 <= a <= d
    ensures 0.0 <= a / d <= 1.0
  {
    DivideKeepsOrder(a, d, d);
    DivideKeepsOrder(0.0, a, d);
  }

  /** A number that times a non-zero d gives y is the quotient y / d. */
  lemma QuotientUnique(x: real, d: real, y: real)
    requires d != 0.0 && x * d == y
    ensures x == y / d
  {
    assert (x - y / d) * d == 0.0;
  }

  /** The product of two numbers that are not negative is not negative. */
  lemma ProductNonNegative(a: real, b: real)
    requires a >= 0.0 && b >= 0.0
    ensures a * b >= 0.0
  {
  }
}

=== FILE: optional.dfy ===
/** A value that may be missing: the model's stand-in for JavaScript's
    `undefined` (and the NaN that arithmetic on it produces). */
module Optional {

  datatype Option<+T> = None | Some(value: T) {

    /** The wrapped value, or `default` when it is missing (JavaScript's `x || default`
        for a value that is never zero when present). */
    function GetOr(default: T): T
    {
      match this
      case Some(v) => v
      case None => default
    }
  }
}

=== FILE: scoring.dfy ===
/** The approval score of `computeProbability`, the five-factor breakdown
    shown beside it, and the score the breakdown suggests was meant. */
module Scoring {
  import opened Optional
  import opened Numeric
  import opened Config
  import opened LoanForm

  /** Five sub-scores, in the order of the weights. */
  datatype Scores = Scores(credit: real, affordability: real, loanSize: real, employment: real, age: real)
  {
    /** No sub-score is negative. */
    predicate NonNegative()
    {
      credit >= 0.0 && affordability >= 0.0 && loanSize >= 0.0 && employment >= 0.0 && age >= 0.0
    }

    /** Every sub-score lies on the 0..100 scale. */
    predicate InRange()
    {
      && 0.0 <= credit <= 100.0
      && 0.0 <= affordability <= 100.0
      && 0.0 <= loanSize <= 100.0
      && 0.0 <= employment <= 100.0
      && 0.0 <= age <= 100.0
    }
  }

  /** The breakdown array of `assessLoan`. The employment entry is missing
      (NaN in the source) when the employment key has no rate. */
  datatype Factors = Factors(credit: real, affordability: real, loanSize: real, employment: Option<real>, age: real)

  /** Each sub-score times its weight, over 100, summed. When every
      sub-score is the same value, the total is that value scaled by the
      weights' total over 100; with no weight negative, sub-scores that are
      not negative give a total that is not negative. */
  function Weighted(s: Scores, w: Weights): (total: real)
    ensures s.affordability == s.credit && s.loanSize == s.credit && s.employment == s.credit && s.age == s.credit ==>
              total * 100.0 == s.credit * w.Total()
    ensures w.NonNegative() && s.NonNegative() ==> total >= 0.0
  {
    assert w.NonNegative() && s.NonNegative() ==>
      && s.credit * w.credit >= 0.0 && s.affordability * w.affordability >= 0.0
      && s.loanSize * w.loanSize >= 0.0 && s.employment * w.employment >= 0.0 && s.age * w.age >= 0.0
    by {
      if w.NonNegative() && s.NonNegative() {
        ProductNonNegative(s.credit, w.credit);
        ProductNonNegative(s.affordability, w.affordability);
        ProductNonNegative(s.loanSize, w.loanSize);
        ProductNonNegative(s.employment, w.employment);
        ProductNonNegative(s.age, w.age);
      }
    }
    s.credit * w.credit / 100.0
      + s.affordability * w.affordability / 100.0
      + s.loanSize * w.loanSize / 100.0
      + s.employment * w.employment / 100.0
      + s.age * w.age / 100.0
  }

  /** `form.tenure || 1`: a zero tenure counts as one month. */
  function TenureOrOne(tenure: int): (t: real)
    ensures t != 0.0
    ensures tenure != 0 ==> t == tenure as real
    ensures tenure == 0 ==> t == 1.0
  {
    if tenure == 0 then 1.0 else tenure as real
  }

  /** Income less debts, each month. */
  function NetIncome(form: Form): real
  {
    form.income + form.coIncome - form.debts
  }

  /** Income left after debts, as a percentage of the monthly principal
      share `loanAmount / months`, clamped to 0..100. */
  function Affordability(form: Form, months: real): (s: real)
    requires form.loanAmount != 0.0 && months != 0.0
    ensures 0.0 <= s <= 100.0
  {
    var share := form.loanAmount / months;
    assert share != 0.0 by {
      assert share * months == form.loanAmount;
    }
    Clamp(100.0 * (NetIncome(form) / share), 0.0, 100.0)
  }

  /** While the net income over the months of the loan is between nothing
      and the whole loan, the affordability sub-score is that share of the
      loan as a percentage. */
  lemma AffordabilityValue(form: Form, months: real)
    requires form.loanAmount > 0.0 && months > 0.0
    requires 0.0 <= NetIncome(form) * months <= form.loanAmount
    ensures Affordability(form, months) * form.loanAmount == 100.0 * NetIncome(form) * months
  {
    var share := form.loanAmount / months;
    var x := NetIncome(form) / share;
    assert share * months == form.loanAmount;
    assert x * share == NetIncome(form);
    assert x * form.loanAmount == NetIncome(form) * months by {
      assert x * form.loanAmount == x * share * months;
    }
    QuotientUnique(x, form.loanAmount, NetIncome(form) * months);
    FractionInUnit(NetIncome(form) * months, form.loanAmount);
  }

  /** More income, all else equal, never lowers the affordability
      sub-score. */
  lemma AffordabilityMonotone(form: Form, months: real, more: real)
    requires form.loanAmount > 0.0 && months > 0.0 && form.income <= more
    ensures Affordability(form, months) <= Affordability(form.(income := more), months)
  {
    var share := form.loanAmount / months;
    assert share > 0.0 by {
      assert share * months == form.loanAmount;
    }
    DivideKeepsOrder(NetIncome(form), NetIncome(form.(income := more)), share);
    ClampMonotone(100.0 * (NetIncome(form) / share), 100.0 * (NetIncome(form.(income := more)) / share), 0.0, 100.0);
  }

  /** How far the loan stays below a year's income, as a percentage clamped
      to 0..100: 100 for no loan, 0 for a year's income or more. */
  function LoanSize(form: Form): (s: real)
    requires form.income != 0.0
    ensures 0.0 <= s <= 100.0
  {
    Clamp(100.0 * (1.0 - form.loanAmount / (form.income * 12.0)), 0.0, 100.0)
  }

  /** While the loan is between nothing and a year's income, the loan-size
      sub-score is the part of that year's income the loan leaves over, as a
      percentage. */
  lemma LoanSizeValue(form: Form)
    requires form.income > 0.0 && 0.0 <= form.loanAmount <= 12.0 * form.income
    ensures LoanSize(form) * (12.0 * form.income) == 100.0 * (12.0 * form.income - form.loanAmount)
  {
    var year := form.income * 12.0;
    var fraction := form.loanAmount / year;
    assert fraction * year == form.loanAmount;
    FractionInUnit(form.loanAmount, year);
    assert LoanSize(form) == 100.0 * (1.0 - fraction);
  }

  /** A larger loan, on the same positive income, never raises the
      loan-size sub-score. */
  lemma LoanSizeMonotone(form: Form, bigger: real)
    requires form.income > 0.0 && form.loanAmount <= bigger
    ensures LoanSize(form.(loanAmount := bigger)) <= LoanSize(form)
  {
    var year := form.income * 12.0;
    DivideKeepsOrder(form.loanAmount, bigger, year);
    ClampMonotone(100.0 * (1.0 - bigger / year), 100.0 * (1.0 - form.loanAmount / year), 0.0, 100.0);
  }

  /** Age as a percentage of 75 years, clamped to 0..100. */
  function AgeScore(form: Form): (s: real)
    ensures 0.0 <= s <= 100.0
    ensures 0.0 <= form.age <= 75.0 ==> s * 75.0 == 100.0 * form.age
  {
    Clamp(100.0 * (form.age / 75.0), 0.0, 100.0)
  }

  /** `100 - rate·100`: a cheaper rate scores higher, and the rate can be
      read back from the score. A table rate scores between 86 and 91.5. */
  function EmploymentScore(rate: real): (s: real)
    ensures rate == (100.0 - s) / 100.0
    ensures 0.085 <= rate <= 0.14 ==> 86.0 <= s <= 91.5
    ensures 0.0 <= rate <= 1.0 ==> 0.0 <= s <= 100.0
  {
    100.0 - rate * 100.0
  }

  /** The credit sub-score of the breakdown: the score over 9, clamped to
      0..100, so that 900 maps to 100. */
  function CreditFactor(creditScore: real): (s: real)
    ensures 0.0 <= s <= 100.0
    ensures 0.0 <= creditScore <= 900.0 ==> s * 9.0 == creditScore
  {
    Clamp(creditScore / 9.0, 0.0, 100.0)
  }

  /** The sub-scores `computeProbability` weighs: the credit score clamped
      to 300..900 but not rescaled, a zero tenure read as one month, and the
      rate 0.1 for an employment key with no rate. */
  function ProbabilityScores(form: Form): (s: Scores)
    requires form.loanAmount != 0.0 && form.income != 0.0
    ensures 300.0 <= s.credit <= 900.0
    ensures 0.0 <= s.affordability <= 100.0 && 0.0 <= s.loanSize <= 100.0 && 0.0 <= s.age <= 100.0
    ensures 86.0 <= s.employment <= 91.5
  {
    Scores(
      Clamp(form.creditScore, 300.0, 900.0),
      Affordability(form, TenureOrOne(form.tenure)),
      LoanSize(form),
      EmploymentScore(EmpRate(form.employment).GetOr(0.1)),
      AgeScore(form))
  }

  /** `computeProbability(form)`: the weighted sum of the sub-scores, clamped
      to 0..100. The callers validate the form first, so the loan amount and
      the income are never zero. */
  function ComputeProbability(form: Form): (prob: real)
    requires form.loanAmount != 0.0 && form.income != 0.0
    ensures 0.0 <= prob <= 100.0
  {
    Clamp(Weighted(ProbabilityScores(form), WEIGHTS), 0.0, 100.0)
  }

  /** The weighted sum `computeProbability` clamps is at least 120: the
      unscaled credit score alone contributes 300·40/100, and no other term
      is negative. */
  lemma WeightedProbabilityAtLeast120(form: Form)
    requires form.loanAmount != 0.0 && form.income != 0.0
    ensures Weighted(ProbabilityScores(form), WEIGHTS) >= 120.0
  {
    var s := ProbabilityScores(form);
    assert s.credit * 40.0 / 100.0 >= 120.0;
  }

  /** As written, `computeProbability` returns 100 for every form it is
      given: the weighted sum always exceeds the upper clamp bound. */
  lemma ProbabilityAlwaysFull(form: Form)
    requires form.loanAmount != 0.0 && form.income != 0.0
    ensures ComputeProbability(form) == 100.0
  {
    WeightedProbabilityAtLeast120(form);
  }

  /** The breakdown array of `assessLoan`, built from the raw tenure (the
      callers validate it to be non-zero) and with the credit score over 9. */
  function Breakdown(form: Form): (f: Factors)
    requires form.loanAmount != 0.0 && form.income != 0.0 && form.tenure != 0
    ensures 0.0 <= f.credit <= 100.0 && 0.0 <= f.affordability <= 100.0
    ensures 0.0 <= f.loanSize <= 100.0 && 0.0 <= f.age <= 100.0
    ensures f.employment.Some? <==> form.employment in EMPLOYMENT_KEYS
    ensures f.employment.Some? ==> 86.0 <= f.employment.value <= 91.5
    ensures f.employment.Some? ==> f.employment.value == 100.0 - EmpRate(form.employment).value * 100.0
  {
    var rate := EmpRate(form.employment);
    Factors(
      CreditFactor(form.creditScore),
      Affordability(form, form.tenure as real),
      LoanSize(form),
      if rate.Some? then Some(EmploymentScore(rate.value)) else None,
      AgeScore(form))
  }

  /** The sub-scores the corrected score weighs: those of
      `computeProbability`, except that the credit score is put on the 0..100
      scale the breakdown shows. */
  function IntendedScores(form: Form): (s: Scores)
    requires form.loanAmount != 0.0 && form.income != 0.0
    ensures s.InRange()
    ensures s.credit == CreditFactor(form.creditScore)
    ensures s.affordability == ProbabilityScores(form).affordability
    ensures s.loanSize == ProbabilityScores(form).loanSize
    ensures s.employment == ProbabilityScores(form).employment
    ensures s.age == ProbabilityScores(form).age
  {
    ProbabilityScores(form).(credit := CreditFactor(form.creditScore))
  }

  /** Sub-scores on the 0..100 scale, weighted by weights that total 100,
      give a total on the same scale. */
  lemma WeightedInRange(s: Scores)
    requires s.InRange()
    ensures 0.0 <= Weighted(s, WEIGHTS) <= 100.0
  {
    WeightsTotalHundred();
  }

  /** The corrected approval score: the weighted breakdown sub-scores,
      clamped to 0..100. Unlike the score as written, it is the weighted sum
      itself (the clamp never bites) and it varies with the credit score. */
  function IntendedProbability(form: Form): (prob: real)
    requires form.loanAmount != 0.0 && form.income != 0.0
    ensures 0.0 <= prob <= 100.0
    ensures prob == Weighted(IntendedScores(form), WEIGHTS)
  {
    WeightedInRange(IntendedScores(form));
    Clamp(Weighted(IntendedScores(form), WEIGHTS), 0.0, 100.0)
  }

  /** For a validated form with a known employment key, the corrected score
      weighs exactly the five factors of the breakdown. */
  lemma IntendedMatchesBreakdown(form: Form)
    requires form.loanAmount != 0.0 && form.income != 0.0 && form.tenure != 0
    requires form.employment in EMPLOYMENT_KEYS
    ensures var f := Breakdown(form);
      IntendedScores(form) == Scores(f.credit, f.affordability, f.loanSize, f.employment.value, f.age)
  {
  }

  /** Raising the credit score, all else equal, never lowers the corrected
      score. */
  lemma IntendedMonotoneInCredit(form: Form, higher: real)
    requires form.loanAmount != 0.0 && form.income != 0.0
    requires form.creditScore <= higher
    ensures IntendedProbability(form) <= IntendedProbability(form.(creditScore := higher))
  {
    var s := IntendedScores(form);
    var t := IntendedScores(form.(creditScore := higher));
    ClampMonotone(form.creditScore / 9.0, higher / 9.0, 0.0, 100.0);
    assert t == s.(credit := t.credit);
    WeightedMonotoneInCredit(s, t.credit);
  }

  /** A higher credit sub-score, the others unchanged, never
      lowers the total. */
  lemma WeightedMonotoneInCredit(s: Scores, credit: real)
    requires s.credit <= credit
    ensures Weighted(s, WEIGHTS) <= Weighted(s.(credit := credit), WEIGHTS)
  {
  }
}
